=== FILE: README.md ===
# ZMOD4510 NO2/O3 sensor component — Dafny model

This project models the core of an ESPHome component for the Renesas ZMOD4510
outdoor-air-quality sensor in its NO2/O3 mode. Three parts of it are modelled:

- **Device descriptor** (`descriptor.dfy`, module `Descriptor`). This is the
  configuration table `zmod_no2_o3_sensor_cfg`, with two profiles: INIT and
  MEASUREMENT. Each profile has a start byte and five register groups:
  h, d, m, s and r. The payloads of h, d, m and s are slices of one flat byte
  array (`data_set_4510_init` or `data_set_4510_no2_o3`), located by an offset
  and a length. The model proves three things about these slices:
  - every slice lies inside its array;
  - the slices follow each other with no overlap and no gap, and cover the
    whole array;
  - each slice holds exactly the expected bytes, written out separately as
    one buffer per group.
- **Arduino transport hooks** (`arduino_hal.dfy`, module `ArduinoHal`, with
  `decimal.dfy` for the `%d` rendering). This part covers:
  - the Wire error-string mapping and its snprintf truncation;
  - `_I2CWrite`, which sends two optional segments in one transaction;
  - `_I2CRead`, with its optional repeated-start write phase and its
    short-fill copy loop;
  - the hook table that `HAL_Init` installs.

  The Wire library is abstract. A transfer is the list of Wire calls it makes
  plus what the bus answers: the bytes in the receive queue and the codes
  `endTransmission` returns. The `Wire.available()`/`Wire.read()` calls of
  the read loop are not in the list; the receive queue stands for them.
- **Lifecycle controller** (`component.dfy` and `measurement_cycle.dfy`,
  modules `Component` and `MeasurementCycle`). This part covers:
  - the component's state record, constructor and setters;
  - `setup()`, which wires the device structure and then attempts four
    vendor steps in order;
  - `update()`, a pure function from the vendor replies and the sink
    configuration to a trace of events: start, wait, read, calc and publish.

  Each vendor routine is an input. The start, ADC-read and init steps give a
  return code, the ADC read also gives the 32 bytes it delivers, and the
  NO2/O3 algorithm is a function from its input to a status and results. A
  sink is an `Option` (None is nullptr).

The repository holds two near-identical copies of the component:
`components/zmod4510/zmod4510_component.cpp` and
`esphome/components/zmod4510/zmod4510_component.cpp`. They share one model:
- `update()` is the same function for both. The copies read differently
  named result fields (see "## Left out").
- `setup()` takes a `ConfigWiring` argument for the way the configuration
  bytes reach the device structure. The first copy copies the 6 bytes into
  the device structure (`CopyConfig`). The second aims the device
  structure's pointer at the component's buffer (`PointConfig`).

Further points about the program that the model makes explicit:
- The component has no readiness guard: `update()` runs the same way
  whatever `setup()`'s steps returned (`UpdateIgnoresSetup`).
- The unknown-code message is spelled "Unkown error N" (sic, as in
  arduino.cpp).
- `_I2CRead` returns only a status, not how many bytes it filled. The
  model's `I2cRead` also returns that count, so the short-fill behaviour can
  be stated.
- `_I2CRead` discards the return code of the repeated-start
  `endTransmission(false)`. Its status depends only on the final
  `endTransmission()`.
- The device structure points at the table entries; it does not copy the
  profiles.

## Model

| member | source | states |
|---|---|---|
| `Descriptor.SensorConfig` | components/zmod4510/zmod4510_config_no2_o3.cpp:26-44 | Both profiles have start byte 0x80. The h/d/m/s groups sit at the symbolic H/D/M/S addresses and r is read from 0x97 with no payload. The arrays hold 10 and 50 bytes, and r.len is 4 and 32. prod_data_len is 0 for INIT and ZMOD4510_PROD_DATA_LEN for MEASUREMENT. The payload groups tile their array, concatenate to exactly that array, and each group's slice equals its separately written expected bytes (for example MEASUREMENT m = 23 03, INIT h = 00 50, INIT s = 00 00 80 40). |
| `Descriptor.InitFacts` | components/zmod4510/zmod4510_config_no2_o3.cpp:4-8 | The INIT groups h/d/m/s (offsets 0, 2, 4, 6; lengths 2, 2, 2, 4) tile the 10-byte array, and their slices are 00 50, 00 28, C3 E3 and 00 00 80 40. |
| `Descriptor.MeasurementFacts` | components/zmod4510/zmod4510_config_no2_o3.cpp:10-24 | The MEASUREMENT groups (offsets 0, 8, 16, 18; lengths 8, 8, 2, 32) tile the 50-byte array, and their slices equal the expected per-group bytes. |
| `Descriptor.Payload` | components/zmod4510/zmod4510_config_no2_o3.cpp:29-33 | A group has a payload exactly when it has an offset and offset + len stays within the array, and the payload is len bytes long. The r group, which has no buffer, has no payload. |
| `Descriptor.ContiguousDisjoint` | components/zmod4510/zmod4510_config_no2_o3.cpp:37-40 | Groups laid back to back all have offsets and lie within [start, end). Each one ends no later than any later one begins, so they never overlap. |
| `Descriptor.ContiguousCover` | components/zmod4510/zmod4510_config_no2_o3.cpp:29-32 | When back-to-back groups end inside the array, their payloads concatenated are exactly the array bytes from the first offset to the end: there are no gaps. |
| `Descriptor.TilesCoverExactly` | components/zmod4510/zmod4510_config_no2_o3.cpp:37-41 | In a profile whose groups tile its array, every payload is in bounds, the groups are pairwise disjoint in h, d, m, s order, and the payloads concatenate to the whole array. |
| `ArduinoHal.CodeMessage` | components/zmod4510/src/hal/arduino/arduino.cpp:25-46 | Codes 1 to 5 map to their five specific messages. Every other code maps to "Unkown error " followed by a decimal that parses back to that code and has the shape %d prints (no leading zero, no "-0"), so the mapping is total. For a 32-bit code outside 1 to 5 that text plus its NUL fits the 30-byte scratch buffer. |
| `ArduinoHal.CodeMessageInjective` | components/zmod4510/src/hal/arduino/arduino.cpp:43-45 | Two codes with the same message are the same code. |
| `ArduinoHal.ErrorString` | components/zmod4510/src/hal/arduino/arduino.cpp:47-48 | This models snprintf. With strLen 0 nothing is written. Otherwise the text is a prefix of "Arduino Wire Error: " + message. Its length is that of the whole text when it is shorter than strLen, and exactly strLen - 1 otherwise. It starts with the full "Arduino Wire Error: " prefix once strLen is more than the prefix length. For any 32-bit code and a buffer of 60 bytes or more the text is never cut; that covers HAL_HandleError's 200-byte buffer if HAL_GetErrorInfo forwards it. |
| `ArduinoHal.StatusOf` | components/zmod4510/src/hal/arduino/arduino.cpp:73-76 | The status is ecSuccess exactly when the final endTransmission code is 0. Otherwise it is the HAL_SetError result for that code with scope aesArduino. |
| `ArduinoHal.I2cWrite` | components/zmod4510/src/hal/arduino/arduino.cpp:80-92 | One transaction is made: it begins at slAddr, ends with exactly one STOP, and only Write calls lie between (2 to 4 calls in all). The bytes on the bus are wrData1[0..wrSize1) followed by wrData2[0..wrSize2). A zero-size segment issues no Write. The status is success exactly when endTransmission returns 0, and otherwise the aesArduino error for that code. |
| `ArduinoHal.FillCount` | components/zmod4510/src/hal/arduino/arduino.cpp:68 | The filled count never exceeds the bytes available or rdSize, and is 0 when rdSize is not positive. It equals rdSize or everything available. |
| `ArduinoHal.ReceiveInto` | components/zmod4510/src/hal/arduino/arduino.cpp:67-72 | The copy loop fills min(rdSize, available) bytes, or 0 when rdSize is not positive. Those bytes land in receive order at indices 0..filled-1, the rest of rdData is unchanged, and the unread bytes stay in the queue. |
| `ArduinoHal.I2cRead` | components/zmod4510/src/hal/arduino/arduino.cpp:56-77 | The transaction opens with beginTransmission. When wrSize is non-zero it continues with Write(wrData[0..wrSize)), endTransmission(false) and a 10 ms delay, in that order (6 calls in all); when wrSize is 0 there is no write phase (3 calls in all). Then rdSize bytes are requested, and the only endTransmission that sends a STOP is the final one. The short-fill copy stores min(rdSize, bytes received) bytes at the front of rdData and leaves the rest as it was. The status depends only on the final endTransmission; the repeated-start code is ignored. |
| `ArduinoHal.HalInit` | components/zmod4510/src/hal/arduino/arduino.cpp:96-107 | HAL_Init installs the read, write and sleep hooks, leaves reset NULL, starts Wire, waits 2500 ms, and returns ecSuccess. |
| `Decimal.NatToDecimal` | components/zmod4510/src/hal/arduino/arduino.cpp:44 | The %d digits of a magnitude are non-empty, all decimal digits, and have no leading zero. |
| `Decimal.IntRoundTrip` | components/zmod4510/src/hal/arduino/arduino.cpp:44 | Parsing the %d rendering of any integer gives that integer back. |
| `Decimal.Int32DecimalLength` | components/zmod4510/src/hal/arduino/arduino.cpp:25 | A 32-bit int renders in at most 11 characters. |
| `Component.NewComponent` | components/zmod4510/zmod4510_component.cpp:24-26 | A new component has address 0x33, a 60000 ms poll interval, all three sinks null, and no device wiring yet. Its buffers have the declared sizes: the ADC buffer length is the MEASUREMENT r.len and the production-data length is the MEASUREMENT prod_data_len. |
| `Component.BufferSizesMatchProfile` | components/zmod4510/zmod4510_component.h:43-45 | The config buffer holds 6 bytes. The ADC buffer (32 bytes) equals the MEASUREMENT r-group length, so the ADC read fits exactly. The production-data buffer equals the MEASUREMENT prod_data_len. |
| `Component.SetI2cAddress` | components/zmod4510/zmod4510_component.cpp:28-30 | The address becomes the argument, and putting the old address back gives the original component, so nothing else changed. |
| `Component.SetNo2Sensor` | components/zmod4510/zmod4510_component.cpp:32-34 | The NO2 sink becomes the argument, and nothing else changes. |
| `Component.SetO3Sensor` | components/zmod4510/zmod4510_component.cpp:36-38 | The O3 sink becomes the argument, and nothing else changes. |
| `Component.SetAqiSensor` | components/zmod4510/zmod4510_component.cpp:40-42 | The AQI sink becomes the argument, and nothing else changes. |
| `Component.SettersIndependent` | esphome/components/zmod4510/zmod4510_component.cpp:9-27 | Setters of different fields commute, and any sequence of setters keeps the buffer sizes valid. |
| `Component.WireDevice` | components/zmod4510/zmod4510_component.cpp:47-54 | The device gets the component's address and production-data buffer. init_conf points at INIT and meas_conf at MEASUREMENT. With CopyConfig (this file) the device holds a copy of exactly the 6 configuration bytes. With PointConfig (esphome/components/zmod4510/zmod4510_component.cpp, line 34) it points at the component's buffer. |
| `Component.Setup` | components/zmod4510/zmod4510_component.cpp:44-72 | Exactly four attempts are made, in the order init_sensor, init_measurement, prepare_sensor, init_no2_o3, each recording what that call returned. The device wiring is installed and nothing else in the component changes. |
| `Component.SetupNeverShortCircuits` | esphome/components/zmod4510/zmod4510_component.cpp:42-61 | The steps attempted are the same four, in the same order, whatever any step returns and in either variant. A failure never skips a later step. |
| `MeasurementCycle.InputFor` | components/zmod4510/zmod4510_component.cpp:91-95 | The algorithm input is the ADC buffer with 50 % RH and 25 °C. |
| `MeasurementCycle.Update` | components/zmod4510/zmod4510_component.cpp:74-120 | The cycle always starts with the start command. If start fails, the trace is only the start, with no wait, read, calc or publish. After a successful start the trace continues with the 6000 ms wait and the ADC read. If the read fails the cycle ends there. Calc happens exactly when start and read both succeeded, and its input is the freshly read ADC buffer with the fixed ambient values. A non-OK calc status ends the cycle right after the one calc. When all three succeed the trace is exactly start, wait, read, calc and the publishing block. Only the ADC buffer of the component changes, and a failed start leaves the component as it was. |
| `MeasurementCycle.PublishAllSpec` | components/zmod4510/zmod4510_component.cpp:111-119 | The publishing block contains only publications. Each goes to the sink configured for its channel and carries that channel's result. Every channel with a sink gets one publication, channels with a null sink get none, and the channels come strictly in the order NO2, O3, AQI, so no channel is published twice. A sink set on two channels receives both. |
| `MeasurementCycle.UpdatePublications` | esphome/components/zmod4510/zmod4510_component.cpp:64-118 | Nothing is published unless start, ADC read and calc all return OK. A stabilization or other calc status publishes nothing. On OK the publications are exactly the block above for the results calc returned, and every publication comes after the calc event. |
| `MeasurementCycle.FreshComponentPublishesNothing` | components/zmod4510/zmod4510_component.h:31-33 | With all sinks null by default, update() on a fresh component publishes nothing, whatever the vendor returns. |
| `MeasurementCycle.UpdateIgnoresSetup` | esphome/components/zmod4510/zmod4510_component.cpp:41-72 | For the same vendor replies, the events of update() after setup() are the same as without setup, whatever setup's steps returned. There is no not-ready guard, and a failed initialisation never stops later cycles. |
| `MeasurementCycle.EndToEnd` | components/zmod4510/zmod4510_component.cpp:92-119 | With three sinks set, a stub ADC frame, and a stub algorithm that answers OK for that frame at 50 % RH and 25 °C, exactly the three results are delivered to their three sinks in the order NO2, O3, AQI. |

## Left out

- The vendor library internals are not modelled: `zmod4xxx_init_sensor`, `zmod4xxx_init_measurement`, `zmod4xxx_prepare_sensor`, `zmod4xxx_start_measurement`, `zmod4xxx_read_adc_result`, `init_no2_o3` and `calc_no2_o3`. Their bodies are not available, so each is only a return code, plus the ADC bytes for the read and a function from input to reply for the algorithm.
- Component.Setup: the vendor steps also write the configuration and production-data buffers through the device structure. Those writes come from code not in this model, so `Setup` leaves the buffers unchanged.
- MeasurementCycle.Update: when the ADC read fails, the vendor may already have written part of `adc_buffer_`. The model keeps the buffer unchanged in that case.
- The floating-point concentrations and ambient values are not modelled. Readings are opaque 32-bit patterns passed through unchanged. The ambient values are the exact reals 50.0 and 25.0. The int-to-float cast of the fast AQI is not modelled.
- Timing is not modelled. `delay(6000)`, the 10 ms delay in `_I2CRead`, `_Delay` and the 2500 ms settle in `HAL_Init` appear only as events.
- Wire library internals, Serial output and all `ESP_LOG*` logging are not modelled. Setup failures appear only as recorded return codes.
- `HAL_HandleError` (Serial output followed by an endless `while(1)` halt) and `HAL_Deinit` are not modelled. Its 200-byte buffer falls under the no-truncation bound in the contract of `ErrorString`, if `HAL_GetErrorInfo` forwards it there.
- `HAL_SetError` and `HAL_GetErrorInfo` are not part of this model. A failing hook's return is the pair (code, aesArduino) handed to `HAL_SetError`.
- MeasurementCycle.Update: the two copies of the component publish different fields of the algorithm results. `components/zmod4510/zmod4510_component.cpp` publishes `NO2_conc_ppb` and `O3_conc_ppb`; `esphome/components/zmod4510/zmod4510_component.cpp` publishes `no2_1min_ppb` and `o3_1min_ppb`. The model has one `no2Ppb` and one `o3Ppb` per result, so it does not tell these fields apart. They come out of the vendor algorithm, which is a parameter of the model either way.
- ArduinoHal.ErrorString: the model returns the text written into `str`, not the pointer. Its `strLen` is a natural number: a negative `strLen`, which snprintf would read as a huge size, is not modelled.
- ArduinoHal.I2cRead: it requires `0 <= wrSize <= |wrData|` and `rdSize <= |rdData|`. These are the caller's buffer obligations in C; any other call is undefined behaviour there.
- ArduinoHal.I2cWrite: it requires each size to be between 0 and its buffer's length, for the same reason.
- The values of ZMOD4XXX_H_ADDR, ZMOD4XXX_D_ADDR, ZMOD4XXX_M_ADDR and ZMOD4XXX_S_ADDR, and the numeric values of INIT and MEASUREMENT, are defined in a vendor header that is not part of this model. They stay symbolic.
- ZMOD4510_PROD_DATA_LEN is taken as 10, the value stated beside `prod_data_` in `zmod4510_component.h`. Its defining header is not part of this model.
- The initial contents of `config_`, `prod_data_` and `adc_buffer_` are indeterminate in C++. The model starts them zeroed, and no property depends on them.
- `components/zmod4510/src/algos/zmod4xxx_cleaning.h` declares an opaque vendor routine with no body, so it is not modelled.
- The two `__init__.py` files are the host framework's configuration schema and code generation, not component logic, so they are not modelled.
- The poll interval is only the constructor's default. Changing it belongs to the host framework and is not modelled.

=== FILE: arduino_hal.dfy ===
/**
  The Arduino implementation of the sensor's transport hooks: the Wire error
  strings, the I2C read and write wrappers, and the hook table installed by
  HAL_Init. The Wire library itself is abstract: a transfer is described by
  the Wire calls it makes and by what the bus answers. The
  `Wire.available()`/`Wire.read()` calls of the read loop are not listed as
  calls: the receive queue stands for them.
 */
module ArduinoHal {
  import opened Wrappers
  import Decimal

  /** Error scope tags; aesArduino is the only one this file produces. */
  datatype Scope = AesArduino

  /** What a hook returns: ecSuccess, or the error HAL_SetError records. */
  datatype HalStatus = EcSuccess | HalError(code: int, scope: Scope)

  /**
    One call into the Wire library, in program order. `Wire.available()` and
    `Wire.read()` have no op: the receive queue of a `ReadBus` stands for them.
   */
  datatype WireOp =
    | WireBegin
    | BeginTransmission(addr: bv8)
    | Write(bytes: seq<bv8>)
    | EndTransmission(sendStop: bool)
    | DelayMs(ms: nat)
    | RequestFrom(addr: bv8, quantity: int)

  /**
    What the bus answers during one `_I2CRead`: the return of the
    repeated-start `endTransmission(false)`, the bytes the peer puts in the
    receive queue, and the return of the final `endTransmission()`.
   */
  datatype ReadBus = ReadBus(repeatedStartCode: int, received: seq<bv8>, stopCode: int)

  datatype Transfer = Transfer(status: HalStatus, ops: seq<WireOp>)

  const WirePrefix: string := "Arduino Wire Error: "
  const UnknownPrefix: string := "Unkown error "

  /** The status a hook returns for the code of its final endTransmission. */
  function StatusOf(code: int): (s: HalStatus)
    ensures s == EcSuccess <==> code == 0
    ensures s != EcSuccess ==> s.code == code && s.scope == AesArduino
  {
    if code != 0 then HalError(code, AesArduino) else EcSuccess
  }

  /**
    The message for a Wire error code: five known codes, and "Unkown error N"
    (sic, as in arduino.cpp) for every other code.
   */
  function CodeMessage(code: int): (m: string)
    ensures code == 1 ==> m == "Data too long to fit in transmit buffer"
    ensures code == 2 ==> m == "Received NACK on transmit of address"
    ensures code == 3 ==> m == "Received NACK on transmit of data"
    ensures code == 4 ==> m == "Other error"
    ensures code == 5 ==> m == "Timeout"
    ensures !(1 <= code <= 5) ==>
      |UnknownPrefix| <= |m| && m[..|UnknownPrefix|] == UnknownPrefix &&
      Decimal.ParseInt(m[|UnknownPrefix|..]) == Some(code) &&
      Decimal.Canonical(m[|UnknownPrefix|..])
    // "Unkown error N" and its NUL fit the 30-byte scratch buffer of
    // `_GetErrorString` for every 32-bit code.
    ensures !(1 <= code <= 5) && -0x8000_0000 <= code < 0x8000_0000 ==> |m| + 1 <= 30
  {
    match code
    case 1 => "Data too long to fit in transmit buffer"
    case 2 => "Received NACK on transmit of address"
    case 3 => "Received NACK on transmit of data"
    case 4 => "Other error"
    case 5 => "Timeout"
    case _ =>
      var m := UnknownPrefix + Decimal.IntToDecimal(code);
      Decimal.IntRoundTrip(code);
      assert m[|UnknownPrefix|..] == Decimal.IntToDecimal(code);
      if -0x8000_0000 <= code < 0x8000_0000 then
        Decimal.Int32DecimalLength(code);
        m
      else
        m
  }

  /** Different codes never share a message, so a message identifies its code. */
  lemma CodeMessageInjective(a: int, b: int)
    requires a != b
    ensures CodeMessage(a) != CodeMessage(b)
  {
    if 1 <= a <= 5 && 1 <= b <= 5 {
      KnownMessageLength(a);
      KnownMessageLength(b);
    } else if 1 <= a <= 5 {
      MessageHead(a);
      MessageHead(b);
    } else if 1 <= b <= 5 {
      MessageHead(a);
      MessageHead(b);
    } else {
      var n := |UnknownPrefix|;
      assert Decimal.ParseInt(CodeMessage(a)[n..]) != Decimal.ParseInt(CodeMessage(b)[n..]);
    }
  }

  /** The five known messages have five different lengths. */
  lemma KnownMessageLength(code: int)
    requires 1 <= code <= 5
    ensures |CodeMessage(code)| == [39, 36, 33, 11, 7][code - 1]
  {
  }

  /** Only the unknown-code messages start with the 'U' of "Unkown error ". */
  lemma MessageHead(code: int)
    ensures CodeMessage(code)[0] == 'U' <==> !(1 <= code <= 5)
  {
  }

  /**
    `_GetErrorString(error, scope, str, strLen)`: the text snprintf leaves in
    `str`. With `strLen == 0` nothing is written (None); otherwise `str` holds
    "Arduino Wire Error: " and the code's message, cut to `strLen - 1`
    characters so that the NUL fits. The scope does not affect the text.
   */
  function ErrorString(code: int, scope: Scope, strLen: nat): (r: Option<string>)
    ensures r.None? <==> strLen == 0
    ensures r.Some? ==> |r.value| < strLen
    ensures r.Some? ==> r.value <= WirePrefix + CodeMessage(code)
    ensures r.Some? && |WirePrefix + CodeMessage(code)| < strLen ==> r.value == WirePrefix + CodeMessage(code)
    ensures r.Some? ==> |r.value| == (if |WirePrefix + CodeMessage(code)| < strLen then |WirePrefix + CodeMessage(code)| else strLen - 1)
    ensures r.Some? && strLen > |WirePrefix| ==> WirePrefix <= r.value
    // No 32-bit code's text is longer than 59 characters, so any buffer of
    // 60 bytes or more receives it uncut (HAL_HandleError hands a 200-byte
    // buffer to HAL_GetErrorInfo, which would forward it here).
    ensures -0x8000_0000 <= code < 0x8000_0000 && strLen >= 60 ==> r == Some(WirePrefix + CodeMessage(code))
  {
    if strLen == 0 then None
    else
      var full := WirePrefix + CodeMessage(code);
      Some(if |full| <= strLen - 1 then full else full[..strLen - 1])
  }

  /** The bytes a run of Wire calls puts on the bus: its Write payloads, in order. */
  function Transmitted(ops: seq<WireOp>): seq<bv8> {
    if |ops| == 0 then []
    else (if ops[0].Write? then ops[0].bytes else []) + Transmitted(ops[1..])
  }

  /** The number of endTransmission calls in a run of Wire calls that send a STOP. */
  function StopCount(ops: seq<WireOp>): nat {
    if |ops| == 0 then 0
    else (if ops[0] == EndTransmission(true) then 1 else 0) + StopCount(ops[1..])
  }

  lemma {:induction false} TransmittedAppend(a: seq<WireOp>, b: seq<WireOp>)
    ensures Transmitted(a + b) == Transmitted(a) + Transmitted(b)
    ensures StopCount(a + b) == StopCount(a) + StopCount(b)
    decreases |a|
  {
    if |a| == 0 {
      assert a + b == b;
    } else {
      var ab := a + b;
      assert ab[0] == a[0];
      assert ab[1..] == a[1..] + b;
      TransmittedAppend(a[1..], b);
      var head := if a[0].Write? then a[0].bytes else [];
      calc {
        Transmitted(ab);
        head + Transmitted(a[1..] + b);
        head + (Transmitted(a[1..]) + Transmitted(b));
        { assert head + (Transmitted(a[1..]) + Transmitted(b)) == (head + Transmitted(a[1..])) + Transmitted(b); }
        Transmitted(a) + Transmitted(b);
      }
    }
  }

  /** Wire calls other than Write put no bytes on the bus. */
  lemma {:induction false} SilentOps(ops: seq<WireOp>)
    requires forall i :: 0 <= i < |ops| ==> !ops[i].Write?
    ensures Transmitted(ops) == []
    decreases |ops|
  {
    if |ops| > 0 {
      SilentOps(ops[1..]);
    }
  }

  /** A `Write` call, made only for a non-empty segment. */
  function WriteIfAny(bytes: seq<bv8>): (ops: seq<WireOp>)
    ensures Transmitted(ops) == bytes
    ensures StopCount(ops) == 0
    ensures forall op :: op in ops ==> op.Write? && |op.bytes| > 0
  {
    if |bytes| == 0 then [] else [Write(bytes)]
  }

  /**
    `_I2CWrite`: one transaction to `slAddr` carrying the first `wrSize1`
    bytes of `wrData1` followed by the first `wrSize2` bytes of `wrData2`.
    A zero-size segment issues no Write call. The status depends only on
    what the closing endTransmission returns.
   */
  function I2cWrite(slAddr: bv8, wrData1: seq<bv8>, wrSize1: int, wrData2: seq<bv8>, wrSize2: int, stopCode: int): (r: Transfer)
    requires 0 <= wrSize1 <= |wrData1| && 0 <= wrSize2 <= |wrData2|
    ensures Transmitted(r.ops) == wrData1[..wrSize1] + wrData2[..wrSize2]
    ensures |r.ops| >= 2 && r.ops[0] == BeginTransmission(slAddr) && r.ops[|r.ops| - 1] == EndTransmission(true)
    ensures StopCount(r.ops) == 1
    ensures forall op :: op in r.ops && op.Write? ==> |op.bytes| > 0
    ensures |r.ops| == 2 + (if wrSize1 > 0 then 1 else 0) + (if wrSize2 > 0 then 1 else 0)
    ensures forall i :: 0 < i < |r.ops| - 1 ==> r.ops[i].Write?
    ensures r.status == EcSuccess <==> stopCode == 0
    ensures r.status != EcSuccess ==> r.status == HalError(stopCode, AesArduino)
  {
    var first := WriteIfAny(wrData1[..wrSize1]);
    var second := WriteIfAny(wrData2[..wrSize2]);
    var ops := [BeginTransmission(slAddr)] + first + second + [EndTransmission(true)];
    TransmittedAppend([BeginTransmission(slAddr)], first);
    TransmittedAppend([BeginTransmission(slAddr)] + first, second);
    TransmittedAppend([BeginTransmission(slAddr)] + first + second, [EndTransmission(true)]);
    Transfer(StatusOf(stopCode), ops)
  }

  /** How many bytes the copy loop of `_I2CRead` fills: at most `rdSize`, at most what arrived. */
  function FillCount(rdSize: int, available: nat): (n: nat)
    ensures n <= available
    ensures rdSize <= 0 ==> n == 0
    ensures rdSize > 0 ==> n <= rdSize && (n == rdSize || n == available)
  {
    if rdSize <= 0 then 0 else if rdSize < available then rdSize else available
  }

  /**
    The copy loop of `_I2CRead`: while the receive queue is not empty and
    fewer than `rdSize` bytes were stored, move the next byte into `rdData`.
    Returns the updated buffer, the number of bytes filled, and what is
    left in the queue.
   */
  method ReceiveInto(rdData: seq<bv8>, rdSize: int, queue: seq<bv8>) returns (buf: seq<bv8>, filled: nat, rest: seq<bv8>)
    requires rdSize <= |rdData|
    ensures filled == FillCount(rdSize, |queue|)
    ensures |buf| == |rdData|
    ensures buf[..filled] == queue[..filled]
    ensures buf[filled..] == rdData[filled..]
    ensures rest == queue[filled..]
  {
    buf, filled, rest := rdData, 0, queue;
    while |rest| > 0 && filled < rdSize
      invariant filled <= FillCount(rdSize, |queue|)
      invariant |buf| == |rdData|
      invariant rest == queue[filled..]
      invariant buf[..filled] == queue[..filled]
      invariant buf[filled..] == rdData[filled..]
      decreases |rest|
    {
      buf := buf[filled := rest[0]];
      rest := rest[1..];
      filled := filled + 1;
    }
  }

  /**
    The Wire calls of `_I2CRead` up to its final endTransmission, other than
    the `Wire.available()`/`Wire.read()` calls of its copy loop.
   */
  function ReadOps(slAddr: bv8, written: seq<bv8>, rdSize: int): seq<WireOp> {
    [BeginTransmission(slAddr)]
    + (if |written| > 0 then [Write(written), EndTransmission(false), DelayMs(10)] else [])
    + [RequestFrom(slAddr, rdSize), EndTransmission(true)]
  }

  /**
    `_I2CRead`: when `wrSize` is non-zero, first send the first `wrSize`
    bytes of `wrData` with a repeated start and wait 10 ms; then request
    `rdSize` bytes and copy what arrives (at most `rdSize`) to the front of
    `rdData`, leaving the rest of `rdData` as it was. The status depends
    only on the final endTransmission; the repeated-start one is ignored.
   */
  method I2cRead(slAddr: bv8, wrData: seq<bv8>, wrSize: int, rdData: seq<bv8>, rdSize: int, bus: ReadBus) returns (status: HalStatus, rd: seq<bv8>, filled: nat, ops: seq<WireOp>)
    requires 0 <= wrSize <= |wrData|
    requires rdSize <= |rdData|
    ensures filled == FillCount(rdSize, |bus.received|)
    ensures |rd| == |rdData|
    ensures rd[..filled] == bus.received[..filled]
    ensures rd[filled..] == rdData[filled..]
    ensures Transmitted(ops) == wrData[..wrSize]
    ensures DelayMs(10) in ops <==> wrSize != 0
    ensures EndTransmission(false) in ops <==> wrSize != 0
    ensures |ops| >= 3 && ops[0] == BeginTransmission(slAddr)
    ensures ops[|ops| - 2] == RequestFrom(slAddr, rdSize) && ops[|ops| - 1] == EndTransmission(true)
    ensures StopCount(ops) == 1
    ensures wrSize != 0 ==> |ops| == 6 && ops[1..4] == [Write(wrData[..wrSize]), EndTransmission(false), DelayMs(10)]
    ensures wrSize == 0 ==> |ops| == 3
    ensures status == EcSuccess <==> bus.stopCode == 0
    ensures status != EcSuccess ==> status == HalError(bus.stopCode, AesArduino)
  {
    var rest;
    rd, filled, rest := ReceiveInto(rdData, rdSize, bus.received);
    var written := wrData[..wrSize];
    ops := ReadOps(slAddr, written, rdSize);
    var phase := if |written| > 0 then [Write(written), EndTransmission(false), DelayMs(10)] else [];
    var tail := [RequestFrom(slAddr, rdSize), EndTransmission(true)];
    assert ops == [BeginTransmission(slAddr)] + phase + tail;
    assert Transmitted(phase) == written by {
      if |written| > 0 {
        SilentOps([EndTransmission(false), DelayMs(10)]);
        TransmittedAppend([Write(written)], [EndTransmission(false), DelayMs(10)]);
        assert [Write(written)][1..] == [];
        assert phase == [Write(written)] + [EndTransmission(false), DelayMs(10)];
      }
    }
    assert StopCount(phase) == 0 by {
      if |written| > 0 {
        assert phase[1..] == [EndTransmission(false), DelayMs(10)];
        assert phase[1..][1..] == [DelayMs(10)];
      }
    }
    assert StopCount(tail) == 1 by {
      assert tail[1..] == [EndTransmission(true)];
      assert StopCount([EndTransmission(true)]) == 1 + StopCount([]);
    }
    SilentOps(tail);
    TransmittedAppend([BeginTransmission(slAddr)], phase);
    TransmittedAppend([BeginTransmission(slAddr)] + phase, tail);
    status := StatusOf(bus.stopCode);
  }

  /** The hooks an Interface_t can hold; each names the Arduino function installed. */
  datatype Hook = I2cReadHook | I2cWriteHook | DelayHook

  datatype Interface = Interface(i2cRead: Option<Hook>, i2cWrite: Option<Hook>, msSleep: Option<Hook>, reset: Option<Hook>)

  datatype InitResult = InitResult(hal: Interface, ops: seq<WireOp>, status: HalStatus)

  /**
    `HAL_Init`: start Wire, install the read, write and sleep hooks, leave
    reset unset (this transport cannot reset the device), wait 2500 ms for
    the serial line to settle, and report success.
   */
  function HalInit(hal: Interface): (r: InitResult)
    ensures r.hal.i2cRead == Some(I2cReadHook)
    ensures r.hal.i2cWrite == Some(I2cWriteHook)
    ensures r.hal.msSleep == Some(DelayHook)
    ensures r.hal.reset == None
    ensures r.ops == [WireBegin, DelayMs(2500)]
    ensures r.status == EcSuccess
  {
    InitResult(
      hal.(i2cRead := Some(I2cReadHook), i2cWrite := Some(I2cWriteHook), msSleep := Some(DelayHook), reset := None),
      [WireBegin, DelayMs(2500)],
      EcSuccess)
  }
}

=== FILE: component.dfy ===
/**
  The ZMOD4510 polling component: its state record, the constructor and
  setters, and `setup()`, which wires the vendor device structure and then
  runs the four initialisation steps. Both copies of the component share this
  model. `setup()` differs between them in how it hands the configuration
  buffer to the device structure (`ConfigWiring`); `update()` differs in
  which result fields it publishes, which the model does not distinguish.
 */
module Component {
  import opened Wrappers
  import Descriptor

  /** A downstream sensor object a value can be published to (a non-null pointer). */
  type SinkId = nat

  /** Length of the configuration buffer read back from the device. */
  const ConfigLen: nat := 6
  /** Length of the ADC result buffer: the MEASUREMENT profile's r-group length. */
  const AdcLen: nat := 32
  const DefaultAddress: bv8 := 0x33
  const DefaultUpdateIntervalMs: nat := 60000

  /** A buffer of the component the device structure can point into. */
  datatype ComponentBuffer = ConfigBuffer | ProdDataBuffer

  /** What a pointer-or-array field of the device structure holds. */
  datatype Binding = Copied(bytes: seq<bv8>) | PointsTo(buffer: ComponentBuffer)

  /** The fields of the vendor device structure `dev_` that `setup()` fills in. */
  datatype Device = Device(
    i2cAddr: bv8,
    config: Binding,
    prodData: Binding,
    initConf: Descriptor.ProfileKind,
    measConf: Descriptor.ProfileKind)

  datatype Component = Component(
    address: bv8,
    updateIntervalMs: nat,
    no2Sink: Option<SinkId>,
    o3Sink: Option<SinkId>,
    aqiSink: Option<SinkId>,
    config: seq<bv8>,
    prodData: seq<bv8>,
    adcBuffer: seq<bv8>,
    dev: Option<Device>)

  /** The fixed buffer sizes of the component. */
  predicate Valid(c: Component) {
    && |c.config| == ConfigLen
    && |c.prodData| == Descriptor.ProdDataLen
    && |c.adcBuffer| == AdcLen
  }

  function Zeros(n: nat): (z: seq<bv8>)
    ensures |z| == n
    ensures forall i :: 0 <= i < n ==> z[i] == 0
  {
    seq(n, _ => 0)
  }

  /**
    The constructor: address 0x33, a 60 s poll interval, no sinks, and
    buffers sized as declared (their contents are not meaningful yet).
   */
  function NewComponent(): (c: Component)
    ensures Valid(c)
    ensures c.address == 0x33 && c.updateIntervalMs == 60000
    ensures c.no2Sink == None && c.o3Sink == None && c.aqiSink == None
    ensures c.dev == None
    ensures |c.adcBuffer| == Descriptor.SensorConfig(Descriptor.Measurement).r.len
    ensures |c.prodData| == Descriptor.SensorConfig(Descriptor.Measurement).prodDataLen
  {
    Component(DefaultAddress, DefaultUpdateIntervalMs, None, None, None,
              Zeros(ConfigLen), Zeros(Descriptor.ProdDataLen), Zeros(AdcLen), None)
  }

  /**
    The declared buffer sizes agree with the configuration table: the ADC
    buffer holds exactly the MEASUREMENT result group, and the
    production-data buffer exactly the MEASUREMENT profile's prod_data_len.
   */
  lemma BufferSizesMatchProfile()
    ensures ConfigLen == 6
    ensures AdcLen == Descriptor.SensorConfig(Descriptor.Measurement).r.len
    ensures Descriptor.ProdDataLen == Descriptor.SensorConfig(Descriptor.Measurement).prodDataLen
  {
  }

  /** `set_i2c_address`: only the address changes. */
  function SetI2cAddress(c: Component, address: bv8): (r: Component)
    ensures r.address == address
    ensures r.(address := c.address) == c
  {
    c.(address := address)
  }

  /** `set_no2_sensor`: only the NO2 sink changes (None stands for nullptr). */
  function SetNo2Sensor(c: Component, sink: Option<SinkId>): (r: Component)
    ensures r.no2Sink == sink
    ensures r.(no2Sink := c.no2Sink) == c
  {
    c.(no2Sink := sink)
  }

  /** `set_o3_sensor`: only the O3 sink changes. */
  function SetO3Sensor(c: Component, sink: Option<SinkId>): (r: Component)
    ensures r.o3Sink == sink
    ensures r.(o3Sink := c.o3Sink) == c
  {
    c.(o3Sink := sink)
  }

  /** `set_aqi_sensor`: only the AQI sink changes. */
  function SetAqiSensor(c: Component, sink: Option<SinkId>): (r: Component)
    ensures r.aqiSink == sink
    ensures r.(aqiSink := c.aqiSink) == c
  {
    c.(aqiSink := sink)
  }

  /** Setters of different fields commute, and none of them disturbs the buffers. */
  lemma SettersIndependent(c: Component, a: bv8, n: Option<SinkId>, o: Option<SinkId>, q: Option<SinkId>)
    ensures SetNo2Sensor(SetO3Sensor(c, o), n) == SetO3Sensor(SetNo2Sensor(c, n), o)
    ensures SetO3Sensor(SetAqiSensor(c, q), o) == SetAqiSensor(SetO3Sensor(c, o), q)
    ensures SetAqiSensor(SetNo2Sensor(c, n), q) == SetNo2Sensor(SetAqiSensor(c, q), n)
    ensures SetI2cAddress(SetNo2Sensor(c, n), a) == SetNo2Sensor(SetI2cAddress(c, a), n)
    ensures Valid(c) ==> Valid(SetAqiSensor(SetO3Sensor(SetNo2Sensor(SetI2cAddress(c, a), n), o), q))
  {
  }

  /** How a variant hands the configuration buffer to the device structure. */
  datatype ConfigWiring =
    | CopyConfig   // memcpy of the 6 bytes into an array inside the device structure
    | PointConfig  // the device structure's pointer is aimed at the component's buffer

  /** The vendor initialisation steps of `setup()`, in program order. */
  datatype InitStep = InitSensor | InitMeasurement | PrepareSensor | InitAlgorithm

  const SetupOrder: seq<InitStep> := [InitSensor, InitMeasurement, PrepareSensor, InitAlgorithm]

  /** The return of a vendor call: OK, or an error code. */
  datatype Ret = Ok | Error(code: int)

  /** What the four vendor calls return during one `setup()`. */
  datatype SetupReplies = SetupReplies(initSensor: Ret, initMeasurement: Ret, prepareSensor: Ret, initAlgorithm: Ret)

  /** One attempted step and what it returned; a failure is only logged. */
  datatype Attempt = Attempt(step: InitStep, ret: Ret)

  datatype SetupResult = SetupResult(comp: Component, attempts: seq<Attempt>)

  function StepReply(replies: SetupReplies, step: InitStep): Ret {
    match step
    case InitSensor => replies.initSensor
    case InitMeasurement => replies.initMeasurement
    case PrepareSensor => replies.prepareSensor
    case InitAlgorithm => replies.initAlgorithm
  }

  /** The device structure `setup()` builds before calling into the vendor library. */
  function WireDevice(c: Component, wiring: ConfigWiring): (d: Device)
    requires Valid(c)
    ensures d.i2cAddr == c.address
    ensures d.initConf == Descriptor.Init && d.measConf == Descriptor.Measurement
    ensures d.prodData == PointsTo(ProdDataBuffer)
    ensures wiring == CopyConfig ==> d.config.Copied? && |d.config.bytes| == 6 && d.config.bytes == c.config
    ensures wiring == PointConfig ==> d.config == PointsTo(ConfigBuffer)
  {
    Device(
      i2cAddr := c.address,
      config := if wiring == CopyConfig then Copied(c.config[..ConfigLen]) else PointsTo(ConfigBuffer),
      prodData := PointsTo(ProdDataBuffer),
      initConf := Descriptor.Init,
      measConf := Descriptor.Measurement)
  }

  /**
    `setup()`: wire the device structure, then attempt all four vendor steps
    in order. Whatever a step returns, the next one is still attempted.
   */
  function Setup(c: Component, wiring: ConfigWiring, replies: SetupReplies): (r: SetupResult)
    requires Valid(c)
    ensures Valid(r.comp)
    ensures |r.attempts| == |SetupOrder|
    ensures forall i :: 0 <= i < |r.attempts| ==>
      r.attempts[i].step == SetupOrder[i] && r.attempts[i].ret == StepReply(replies, SetupOrder[i])
    ensures r.comp.dev == Some(WireDevice(c, wiring))
    ensures r.comp.(dev := c.dev) == c
  {
    var attempts := seq(|SetupOrder|, i requires 0 <= i < |SetupOrder| => Attempt(SetupOrder[i], StepReply(replies, SetupOrder[i])));
    SetupResult(c.(dev := Some(WireDevice(c, wiring))), attempts)
  }

  function Steps(attempts: seq<Attempt>): seq<InitStep> {
    seq(|attempts|, i requires 0 <= i < |attempts| => attempts[i].step)
  }

  /**
    The steps `setup()` attempts do not depend on what any step returns, nor
    on the variant: no failure skips a later step.
   */
  lemma SetupNeverShortCircuits(c: Component, w1: ConfigWiring, w2: ConfigWiring, a: SetupReplies, b: SetupReplies)
    requires Valid(c)
    ensures Steps(Setup(c, w1, a).attempts) == Steps(Setup(c, w2, b).attempts) == SetupOrder
  {
  }
}

=== FILE: decimal.dfy ===
/**
  Decimal rendering of integers, as done by the `%d` conversion of `printf`,
  together with a parser that is its inverse. The parser is what lets the
  model say that a rendered message really contains the number it was given.
 */
module Decimal {
  import opened Wrappers

  predicate IsDigit(c: char) {
    '0' <= c <= '9'
  }

  predicate AllDigits(s: string) {
    forall i :: 0 <= i < |s| ==> IsDigit(s[i])
  }

  /**
    The shape of what `%d` prints: digits with no leading zero (unless the
    number is 0 itself), or a minus sign followed by such digits that do not
    start with '0'.
   */
  predicate Canonical(s: string) {
    if |s| >= 1 && s[0] == '-' then
      |s| >= 2 && AllDigits(s[1..]) && s[1] != '0'
    else
      |s| >= 1 && AllDigits(s) && (s[0] == '0' ==> |s| == 1)
  }

  function DigitChar(d: nat): (c: char)
    requires d < 10
    ensures IsDigit(c)
    ensures c as int - '0' as int == d
  {
    "0123456789"[d]
  }

  function DigitValue(c: char): (d: nat)
    requires IsDigit(c)
    ensures d < 10
  {
    c as int - '0' as int
  }

  function Pow10(k: nat): (p: nat)
    ensures p >= 1
  {
    if k == 0 then 1 else 10 * Pow10(k - 1)
  }

  /** The digits of `n`, most significant first, without leading zeros. */
  function NatToDecimal(n: nat): (s: string)
    ensures |s| >= 1
    ensures AllDigits(s)
    ensures s[0] == '0' ==> n == 0 && |s| == 1
    decreases n
  {
    if n < 10 then [DigitChar(n)] else NatToDecimal(n / 10) + [DigitChar(n % 10)]
  }

  /** `%d`: an optional minus sign followed by the digits of the magnitude. */
  function IntToDecimal(n: int): (s: string)
    ensures |s| >= 1
    ensures n < 0 <==> s[0] == '-'
    ensures Canonical(s)
  {
    if n < 0 then
      var digits := NatToDecimal(-n);
      assert ("-" + digits)[1..] == digits;
      "-" + digits
    else NatToDecimal(n)
  }

  /** Value of a string of digits read left to right. */
  function DigitsValue(s: string): (n: nat)
    requires AllDigits(s)
  {
    if |s| == 0 then 0 else 10 * DigitsValue(s[..|s| - 1]) + DigitValue(s[|s| - 1])
  }

  /** Reads back what `IntToDecimal` writes; `None` for anything that is not an integer. */
  function ParseInt(s: string): (r: Option<int>)
    ensures r.Some? ==> |s| >= 1
  {
    if |s| >= 2 && s[0] == '-' && AllDigits(s[1..]) then
      var magnitude: int := DigitsValue(s[1..]);
      Some(-magnitude)
    else if |s| >= 1 && AllDigits(s) then
      Some(DigitsValue(s))
    else
      None
  }

  lemma {:induction false} NatRoundTrip(n: nat)
    ensures DigitsValue(NatToDecimal(n)) == n
    decreases n
  {
    var s := NatToDecimal(n);
    if n >= 10 {
      NatRoundTrip(n / 10);
      assert s[..|s| - 1] == NatToDecimal(n / 10);
    }
  }

  /** A minus sign followed by digits parses to the negated digit value. */
  lemma ParseNegative(digits: string)
    requires |digits| >= 1 && AllDigits(digits)
    ensures ParseInt("-" + digits) == Some(0 - DigitsValue(digits) as int)
  {
    assert ("-" + digits)[1..] == digits;
  }

  /** Digits without a sign parse to their value. */
  lemma ParseNonNegative(digits: string)
    requires |digits| >= 1 && AllDigits(digits)
    ensures ParseInt(digits) == Some(DigitsValue(digits))
  {
    assert digits[0] != '-';
  }

  /** Parsing a rendered integer gives the integer back. */
  lemma IntRoundTrip(n: int)
    ensures ParseInt(IntToDecimal(n)) == Some(n)
  {
    if n < 0 {
      NegativeRoundTrip(n);
    } else {
      NonNegativeRoundTrip(n);
    }
  }

  lemma NegativeRoundTrip(n: int)
    requires n < 0
    ensures ParseInt(IntToDecimal(n)) == Some(n)
  {
    var m: nat := -n;
    var digits := NatToDecimal(m);
    NatRoundTrip(m);
    ParseNegative(digits);
    assert IntToDecimal(n) == "-" + digits;
  }

  lemma NonNegativeRoundTrip(n: nat)
    ensures ParseInt(IntToDecimal(n)) == Some(n)
  {
    var digits := NatToDecimal(n);
    assert IntToDecimal(n) == digits;
    ParseNonNegative(digits);
    NatRoundTrip(n);
  }

  /** A number below 10^k needs at most k digits. */
  lemma {:induction false} NatDecimalLength(n: nat, k: nat)
    requires k >= 1 && n < Pow10(k)
    ensures |NatToDecimal(n)| <= k
    decreases n
  {
    if n >= 10 {
      assert k >= 2;
      assert n / 10 < Pow10(k - 1);
      NatDecimalLength(n / 10, k - 1);
    }
  }

  /** A 32-bit `int` renders in at most 11 characters ("-2147483648"). */
  lemma Int32DecimalLength(n: int)
    requires -0x8000_0000 <= n < 0x8000_0000
    ensures |IntToDecimal(n)| <= 11
  {
    assert Pow10(10) == 10_000_000_000;
    if n < 0 {
      NatDecimalLength(-n, 10);
    } else {
      NatDecimalLength(n, 10);
    }
  }
}

=== FILE: descriptor.dfy ===
/**
  The device descriptor of the ZMOD4510 in NO2/O3 mode: the two configuration
  profiles INIT and MEASUREMENT. Each profile names five register groups
  (h, d, m, s, r). The payloads of h, d, m and s are slices of one flat byte
  array, located by an offset into it and a length; r is only read, so it
  has no payload.
 */
module Descriptor {
  import opened Wrappers

  /**
    Register addresses. The addresses of h, d, m and s are the vendor
    constants ZMOD4XXX_H_ADDR .. ZMOD4XXX_S_ADDR, whose values live in a
    vendor header that is not part of this model, so they stay symbolic.
   */
  datatype RegAddr = HAddr | DAddr | MAddr | SAddr | Fixed(value: bv8)

  /** A register group: address, byte length, and where its payload starts in the profile's array. */
  datatype RegGroup = RegGroup(addr: RegAddr, len: nat, offset: Option<nat>)

  /** One configuration profile. `data` is the flat array the group offsets point into. */
  datatype Profile = Profile(
    start: bv8,
    h: RegGroup, d: RegGroup, m: RegGroup, s: RegGroup, r: RegGroup,
    prodDataLen: nat,
    data: seq<bv8>)

  /** The index into the configuration table. */
  datatype ProfileKind = Init | Measurement

  /** ZMOD4510_PROD_DATA_LEN: the production-data length of this device variant. */
  const ProdDataLen: nat := 10

  /** The address every result group is read from. */
  const ResultAddr: bv8 := 0x97

  /** data_set_4510_init, one row of the C initializer per line */
  const InitData: seq<bv8> :=
    [0x00, 0x50] +
    [0x00, 0x28, 0xC3, 0xE3] +
    [0x00, 0x00, 0x80, 0x40]

  /** data_set_4510_no2_o3, one row of the C initializer per line */
  const MeasurementData: seq<bv8> :=
    [0x00, 0x50, 0xFF, 0x06] +
    [0xFE, 0xA2, 0xFE, 0x3E] +
    [0x00, 0x10, 0x00, 0x52] +
    [0x3F, 0x66, 0x00, 0x42] +
    [0x23, 0x03] +
    [0x00, 0x00, 0x02, 0x41] +
    [0x00, 0x41, 0x00, 0x41] +
    [0x00, 0x49, 0x00, 0x50] +
    [0x02, 0x42, 0x00, 0x42] +
    [0x00, 0x42, 0x00, 0x4A] +
    [0x00, 0x50, 0x02, 0x43] +
    [0x00, 0x43, 0x00, 0x43] +
    [0x00, 0x43, 0x80, 0x5B]

  /** The groups that carry a payload, in the order their payloads are laid out. */
  function Writable(p: Profile): seq<RegGroup> {
    [p.h, p.d, p.m, p.s]
  }

  /**
    The groups `gs` lie back to back starting at offset `from`: each has a
    payload offset, and it is where the previous one ended.
   */
  predicate Contiguous(gs: seq<RegGroup>, from: nat) {
    |gs| == 0 || (gs[0].offset == Some(from) && Contiguous(gs[1..], from + gs[0].len))
  }

  /** Where a run of groups laid out from `from` ends. */
  function SpanEnd(gs: seq<RegGroup>, from: nat): nat {
    if |gs| == 0 then from else SpanEnd(gs[1..], from + gs[0].len)
  }

  /** The payload groups of `p` are contiguous from 0 and end exactly at the end of its array. */
  predicate Tiles(p: Profile) {
    Contiguous(Writable(p), 0) && SpanEnd(Writable(p), 0) == |p.data|
  }

  /** The bytes group `g` of `p` sends: None when it has no payload or its slice would leave the array. */
  function Payload(p: Profile, g: RegGroup): (r: Option<seq<bv8>>)
    ensures r.Some? <==> g.offset.Some? && g.offset.value + g.len <= |p.data|
    ensures r.Some? ==> |r.value| == g.len
  {
    match g.offset
    case None => None
    case Some(off) =>
      if off + g.len <= |p.data| then Some(p.data[off..off + g.len]) else None
  }

  /** The concatenated payloads of a run of groups (empty when one is missing). */
  function Payloads(p: Profile, gs: seq<RegGroup>): seq<bv8> {
    if |gs| == 0 then []
    else match Payload(p, gs[0])
      case None => []
      case Some(b) => b + Payloads(p, gs[1..])
  }

  /**
    Contiguous groups occupy disjoint ranges, in order, all inside
    [from, SpanEnd): group i ends no later than group j starts for i < j.
   */
  lemma {:induction false} ContiguousDisjoint(gs: seq<RegGroup>, from: nat)
    requires Contiguous(gs, from)
    ensures forall i :: 0 <= i < |gs| ==>
      gs[i].offset.Some? && from <= gs[i].offset.value && gs[i].offset.value + gs[i].len <= SpanEnd(gs, from)
    ensures forall i, j :: 0 <= i < j < |gs| ==> gs[i].offset.value + gs[i].len <= gs[j].offset.value
    decreases |gs|
  {
    if |gs| > 0 {
      var rest := gs[1..];
      ContiguousDisjoint(rest, from + gs[0].len);
      SpanEndAtLeast(rest, from + gs[0].len);
      forall i | 0 <= i < |gs|
        ensures gs[i].offset.Some? && from <= gs[i].offset.value && gs[i].offset.value + gs[i].len <= SpanEnd(gs, from)
      {
        if i > 0 {
          assert gs[i] == rest[i - 1];
        }
      }
      forall i, j | 0 <= i < j < |gs|
        ensures gs[i].offset.value + gs[i].len <= gs[j].offset.value
      {
        assert gs[j] == rest[j - 1];
        if i > 0 {
          assert gs[i] == rest[i - 1];
        }
      }
    }
  }

  lemma {:induction false} SpanEndAtLeast(gs: seq<RegGroup>, from: nat)
    ensures SpanEnd(gs, from) >= from
    decreases |gs|
  {
    if |gs| > 0 {
      SpanEndAtLeast(gs[1..], from + gs[0].len);
    }
  }

  /**
    Contiguous groups that end inside the array cover it without gaps: their
    payloads, concatenated, are exactly the bytes from `from` to their end.
   */
  lemma {:induction false} ContiguousCover(p: Profile, gs: seq<RegGroup>, from: nat)
    requires Contiguous(gs, from)
    requires SpanEnd(gs, from) <= |p.data|
    ensures from <= SpanEnd(gs, from)
    ensures Payloads(p, gs) == p.data[from..SpanEnd(gs, from)]
    decreases |gs|
  {
    SpanEndAtLeast(gs, from);
    if |gs| > 0 {
      var next := from + gs[0].len;
      SpanEndAtLeast(gs[1..], next);
      ContiguousCover(p, gs[1..], next);
      assert Payload(p, gs[0]) == Some(p.data[from..next]);
      assert p.data[from..SpanEnd(gs, from)] == p.data[from..next] + p.data[next..SpanEnd(gs, from)];
    }
  }

  /** A tiling profile's payloads are in bounds, pairwise disjoint, and concatenate to its whole array. */
  lemma TilesCoverExactly(p: Profile)
    requires Tiles(p)
    ensures forall g :: g in Writable(p) ==> Payload(p, g).Some?
    ensures forall i, j :: 0 <= i < j < 4 ==>
      && Writable(p)[i].offset.Some? && Writable(p)[j].offset.Some?
      && Writable(p)[i].offset.value + Writable(p)[i].len <= Writable(p)[j].offset.value
    ensures Payloads(p, Writable(p)) == p.data
  {
    ContiguousDisjoint(Writable(p), 0);
    ContiguousCover(p, Writable(p), 0);
    assert p.data[0..|p.data|] == p.data;
  }

  /** zmod_no2_o3_sensor_cfg[INIT] */
  const InitProfile: Profile := Profile(
    start := 0x80,
    h := RegGroup(HAddr, 2, Some(0)),
    d := RegGroup(DAddr, 2, Some(2)),
    m := RegGroup(MAddr, 2, Some(4)),
    s := RegGroup(SAddr, 4, Some(6)),
    r := RegGroup(Fixed(ResultAddr), 4, None),
    prodDataLen := 0,
    data := InitData)

  /** zmod_no2_o3_sensor_cfg[MEASUREMENT] */
  const MeasurementProfile: Profile := Profile(
    start := 0x80,
    h := RegGroup(HAddr, 8, Some(0)),
    d := RegGroup(DAddr, 8, Some(8)),
    m := RegGroup(MAddr, 2, Some(16)),
    s := RegGroup(SAddr, 32, Some(18)),
    r := RegGroup(Fixed(ResultAddr), 32, None),
    prodDataLen := ProdDataLen,
    data := MeasurementData)

  /**
    The per-group payloads written out one buffer per group, independently
    of the flat arrays; the table must reproduce them byte for byte.
   */
  datatype GroupBytes = GroupBytes(h: seq<bv8>, d: seq<bv8>, m: seq<bv8>, s: seq<bv8>)

  const InitBytes := GroupBytes(
    h := [0x00, 0x50],
    d := [0x00, 0x28],
    m := [0xC3, 0xE3],
    s := [0x00, 0x00, 0x80, 0x40])

  const MeasurementBytes := GroupBytes(
    h := [0x00, 0x50, 0xFF, 0x06] + [0xFE, 0xA2, 0xFE, 0x3E],
    d := [0x00, 0x10, 0x00, 0x52] + [0x3F, 0x66, 0x00, 0x42],
    m := [0x23, 0x03],
    s := [0x00, 0x00, 0x02, 0x41] + [0x00, 0x41, 0x00, 0x41] +
         [0x00, 0x49, 0x00, 0x50] + [0x02, 0x42, 0x00, 0x42] +
         [0x00, 0x42, 0x00, 0x4A] + [0x00, 0x50, 0x02, 0x43] +
         [0x00, 0x43, 0x00, 0x43] + [0x00, 0x43, 0x80, 0x5B])

  function ExpectedBytes(k: ProfileKind): GroupBytes {
    match k
    case Init => InitBytes
    case Measurement => MeasurementBytes
  }

  /** The configuration table zmod_no2_o3_sensor_cfg, indexed by profile. */
  function SensorConfig(k: ProfileKind): (p: Profile)
    ensures Tiles(p)
    ensures Payloads(p, Writable(p)) == p.data
    ensures p.start == 0x80
    ensures p.h.addr == HAddr && p.d.addr == DAddr && p.m.addr == MAddr && p.s.addr == SAddr
    ensures p.r.addr == Fixed(0x97) && p.r.offset == None
    ensures |p.data| == (if k == Init then 10 else 50)
    ensures p.r.len == (if k == Init then 4 else 32)
    ensures p.prodDataLen == (if k == Init then 0 else ProdDataLen)
    ensures Payload(p, p.h) == Some(ExpectedBytes(k).h)
    ensures Payload(p, p.d) == Some(ExpectedBytes(k).d)
    ensures Payload(p, p.m) == Some(ExpectedBytes(k).m)
    ensures Payload(p, p.s) == Some(ExpectedBytes(k).s)
  {
    match k
    case Init => InitFacts(); TilesCoverExactly(InitProfile); InitProfile
    case Measurement => MeasurementFacts(); TilesCoverExactly(MeasurementProfile); MeasurementProfile
  }

  /** Four groups are contiguous exactly when each starts where the previous one ends. */
  lemma ContiguousFour(gs: seq<RegGroup>, from: nat)
    requires |gs| == 4
    ensures Contiguous(gs, from) <==>
      && gs[0].offset == Some(from)
      && gs[1].offset == Some(from + gs[0].len)
      && gs[2].offset == Some(from + gs[0].len + gs[1].len)
      && gs[3].offset == Some(from + gs[0].len + gs[1].len + gs[2].len)
    ensures SpanEnd(gs, from) == from + gs[0].len + gs[1].len + gs[2].len + gs[3].len
  {
    var f1 := from + gs[0].len;
    var f2 := f1 + gs[1].len;
    var f3 := f2 + gs[2].len;
    var t1 := gs[1..];
    var t2 := t1[1..];
    var t3 := t2[1..];
    assert t3[1..] == [];
    assert Contiguous(t3, f3) <==> gs[3].offset == Some(f3);
    assert Contiguous(t2, f2) <==> gs[2].offset == Some(f2) && Contiguous(t3, f3);
    assert Contiguous(t1, f1) <==> gs[1].offset == Some(f1) && Contiguous(t2, f2);
    assert SpanEnd(t3, f3) == f3 + gs[3].len;
    assert SpanEnd(t2, f2) == SpanEnd(t3, f3);
    assert SpanEnd(t1, f1) == SpanEnd(t2, f2);
  }

  /** Each group's slice of its profile's array holds that group's expected bytes. */
  lemma DataSlices()
    ensures InitData[0..2] == InitBytes.h
    ensures InitData[2..4] == InitBytes.d
    ensures InitData[4..6] == InitBytes.m
    ensures InitData[6..10] == InitBytes.s
    ensures MeasurementData[0..8] == MeasurementBytes.h
    ensures MeasurementData[8..16] == MeasurementBytes.d
    ensures MeasurementData[16..18] == MeasurementBytes.m
    ensures MeasurementData[18..50] == MeasurementBytes.s
  {
  }

  lemma InitFacts()
    ensures Tiles(InitProfile)
    ensures Payload(InitProfile, InitProfile.h) == Some(InitBytes.h)
    ensures Payload(InitProfile, InitProfile.d) == Some(InitBytes.d)
    ensures Payload(InitProfile, InitProfile.m) == Some(InitBytes.m)
    ensures Payload(InitProfile, InitProfile.s) == Some(InitBytes.s)
  {
    ContiguousFour(Writable(InitProfile), 0);
    DataSlices();
  }

  lemma MeasurementFacts()
    ensures Tiles(MeasurementProfile)
    ensures Payload(MeasurementProfile, MeasurementProfile.h) == Some(MeasurementBytes.h)
    ensures Payload(MeasurementProfile, MeasurementProfile.d) == Some(MeasurementBytes.d)
    ensures Payload(MeasurementProfile, MeasurementProfile.m) == Some(MeasurementBytes.m)
    ensures Payload(MeasurementProfile, MeasurementProfile.s) == Some(MeasurementBytes.s)
  {
    ContiguousFour(Writable(MeasurementProfile), 0);
    DataSlices();
  }
}

=== FILE: measurement_cycle.dfy ===
/**
  One `update()` of the ZMOD4510 component: start a measurement, wait for
  it, read the ADC result, run the NO2/O3 algorithm on it with fixed ambient
  values, and publish the results to the configured sinks. The vendor calls
  are parameters: their return codes, the bytes the ADC read delivers, and
  the algorithm as a function of its input. Floating-point readings are
  opaque bit patterns that are only passed along.
 */
module MeasurementCycle {
  import opened Wrappers
  import Component
  import Descriptor

  type SinkId = Component.SinkId

  /** A float reading, passed through untouched. */
  datatype Reading = Reading(bits: bv32)

  /** What a sink receives: a concentration, or the fast AQI (its float cast is not modelled). */
  datatype Sample = Ppb(reading: Reading) | Index(aqi: int)

  datatype Channel = No2 | O3 | Aqi

  /** The 32 bytes the ADC read writes into `adc_buffer_`. */
  type AdcFrame = s: seq<bv8> | |s| == Component.AdcLen witness Component.Zeros(Component.AdcLen)

  /** The algorithm input: the ADC buffer and the ambient humidity (% RH) and temperature (degC). */
  datatype AlgoInput = AlgoInput(adc: seq<bv8>, humidityPct: real, temperatureDegC: real)

  datatype AlgoResults = AlgoResults(no2Ppb: Reading, o3Ppb: Reading, fastAqi: int)

  /** What calc_no2_o3 returns: OK, the stabilization status, or another error. */
  datatype CalcStatus = CalcOk | Stabilization | CalcError(code: int)

  datatype CalcReply = CalcReply(status: CalcStatus, results: AlgoResults)

  /** The outcome of zmod4xxx_read_adc_result: the frame read, or an error code. */
  datatype AdcRead = AdcOk(frame: AdcFrame) | AdcError(code: int)

  /** The vendor library as seen by one cycle. */
  datatype Vendor = Vendor(startMeasurement: Component.Ret, readAdc: AdcRead, algorithm: AlgoInput -> CalcReply)

  /** The visible steps of a cycle, in order. */
  datatype Event =
    | StartMeasurement
    | Wait(ms: nat)
    | ReadAdc
    | Calc(input: AlgoInput)
    | Publish(channel: Channel, sink: SinkId, value: Sample)

  datatype Cycle = Cycle(events: seq<Event>, comp: Component.Component)

  /** The conversion time of the NO2/O3 mode. */
  const MeasurementWaitMs: nat := 6000
  const DefaultHumidityPct: real := 50.0
  const DefaultTemperatureDegC: real := 25.0

  function SinkOf(c: Component.Component, ch: Channel): Option<SinkId> {
    match ch
    case No2 => c.no2Sink
    case O3 => c.o3Sink
    case Aqi => c.aqiSink
  }

  function ValueOf(r: AlgoResults, ch: Channel): Sample {
    match ch
    case No2 => Ppb(r.no2Ppb)
    case O3 => Ppb(r.o3Ppb)
    case Aqi => Index(r.fastAqi)
  }

  /** The position of a channel in the publishing order NO2, O3, AQI. */
  function Rank(ch: Channel): nat {
    match ch
    case No2 => 0
    case O3 => 1
    case Aqi => 2
  }

  /** Publish to the channel's sink if there is one; skip it silently otherwise. */
  function PublishTo(c: Component.Component, r: AlgoResults, ch: Channel): seq<Event> {
    match SinkOf(c, ch)
    case None => []
    case Some(s) => [Publish(ch, s, ValueOf(r, ch))]
  }

  /** The publishing block of a successful cycle. */
  function PublishAll(c: Component.Component, r: AlgoResults): seq<Event> {
    PublishTo(c, r, No2) + PublishTo(c, r, O3) + PublishTo(c, r, Aqi)
  }

  function Publications(events: seq<Event>): seq<Event> {
    if |events| == 0 then []
    else (if events[0].Publish? then [events[0]] else []) + Publications(events[1..])
  }

  /** The algorithm input of a cycle: the ADC buffer with 50 % RH and 25 degC. */
  function InputFor(adc: seq<bv8>): (input: AlgoInput)
    ensures input.adc == adc
    ensures input.humidityPct == 50.0 && input.temperatureDegC == 25.0
  {
    AlgoInput(adc, DefaultHumidityPct, DefaultTemperatureDegC)
  }

  /**
    `update()`. A failed start ends the cycle at once; a failed ADC read ends
    it before the algorithm runs; a non-OK algorithm status (stabilization or
    an error) ends it before anything is published. Otherwise each
    configured sink gets its value, NO2 then O3 then AQI. Only the ADC
    buffer of the component changes.
   */
  function Update(c: Component.Component, v: Vendor): (r: Cycle)
    requires Component.Valid(c)
    ensures Component.Valid(r.comp)
    ensures r.comp.(adcBuffer := c.adcBuffer) == c
    ensures |r.events| >= 1 && r.events[0] == StartMeasurement
    ensures v.startMeasurement.Error? ==> r.events == [StartMeasurement]
    ensures v.startMeasurement.Error? ==> r.comp == c
    ensures v.startMeasurement == Component.Ok ==> |r.events| >= 3 && r.events[..3] == [StartMeasurement, Wait(6000), ReadAdc]
    ensures v.startMeasurement == Component.Ok && v.readAdc.AdcError? ==> |r.events| == 3
    ensures (exists i :: 0 <= i < |r.events| && r.events[i].Calc?) <==>
      v.startMeasurement == Component.Ok && v.readAdc.AdcOk?
    ensures forall e :: e in r.events && e.Calc? ==> e.input == InputFor(r.comp.adcBuffer)
    ensures v.readAdc.AdcOk? && v.startMeasurement == Component.Ok ==> r.comp.adcBuffer == v.readAdc.frame
    ensures v.startMeasurement == Component.Ok && v.readAdc.AdcOk? && !AllOk(v) ==> |r.events| == 4
    ensures AllOk(v) ==> r.events == CycleHead(v.readAdc.frame) + PublishAll(c, AlgorithmReply(v, v.readAdc.frame).results)
  {
    if v.startMeasurement.Error? then
      Cycle([StartMeasurement], c)
    else
      match v.readAdc
      case AdcError(_) =>
        Cycle([StartMeasurement, Wait(MeasurementWaitMs), ReadAdc], c)
      case AdcOk(frame) =>
        var c' := c.(adcBuffer := frame);
        var input := InputFor(c'.adcBuffer);
        var reply := v.algorithm(input);
        var head := [StartMeasurement, Wait(MeasurementWaitMs), ReadAdc, Calc(input)];
        if reply.status != CalcOk then
          assert head[3].Calc?;
          Cycle(head, c')
        else
          var events := head + PublishAll(c, reply.results);
          assert events[3].Calc?;
          Cycle(events, c')
  }

  /** The results the algorithm hands back in a cycle whose ADC read delivered `frame`. */
  function AlgorithmReply(v: Vendor, frame: AdcFrame): CalcReply {
    v.algorithm(InputFor(frame))
  }

  /** True when the start, the ADC read and the algorithm all report OK. */
  predicate AllOk(v: Vendor) {
    v.startMeasurement == Component.Ok && v.readAdc.AdcOk? && AlgorithmReply(v, v.readAdc.frame).status == CalcOk
  }

  lemma {:induction false} PublicationsAppend(a: seq<Event>, b: seq<Event>)
    ensures Publications(a + b) == Publications(a) + Publications(b)
    decreases |a|
  {
    if |a| == 0 {
      assert a + b == b;
    } else {
      assert (a + b)[0] == a[0];
      assert (a + b)[1..] == a[1..] + b;
      PublicationsAppend(a[1..], b);
    }
  }

  lemma {:induction false} PublicationsOfPublishes(es: seq<Event>)
    requires forall i :: 0 <= i < |es| ==> es[i].Publish?
    ensures Publications(es) == es
    decreases |es|
  {
    if |es| > 0 {
      PublicationsOfPublishes(es[1..]);
      assert es == [es[0]] + es[1..];
    }
  }

  lemma {:induction false} PublicationsOfNoPublishes(es: seq<Event>)
    requires forall i :: 0 <= i < |es| ==> !es[i].Publish?
    ensures Publications(es) == []
    decreases |es|
  {
    if |es| > 0 {
      PublicationsOfNoPublishes(es[1..]);
    }
  }

  /**
    The publishing block of a successful cycle: only publications, each to
    the sink configured for its channel with that channel's result, one for
    every configured sink, channels strictly in the order NO2, O3, AQI.
   */
  lemma PublishAllSpec(c: Component.Component, res: AlgoResults)
    ensures var p := PublishAll(c, res);
      && (forall i :: 0 <= i < |p| ==>
            p[i].Publish? && SinkOf(c, p[i].channel) == Some(p[i].sink) && p[i].value == ValueOf(res, p[i].channel))
      && (forall ch :: SinkOf(c, ch).Some? <==> exists i :: 0 <= i < |p| && p[i].channel == ch)
      && (forall i, j :: 0 <= i < j < |p| ==> Rank(p[i].channel) < Rank(p[j].channel))
  {
    var p := PublishAll(c, res);
    var a, b, q := PublishTo(c, res, No2), PublishTo(c, res, O3), PublishTo(c, res, Aqi);
    assert p == a + b + q;
    // One case per choice of configured sinks; in each the block is a short literal.
    match (c.no2Sink, c.o3Sink, c.aqiSink)
    case (None, None, None) =>
    case (Some(x), None, None) =>
      assert p == [Publish(No2, x, ValueOf(res, No2))];
      assert p[0].channel == No2;
    case (None, Some(y), None) =>
      assert p == [Publish(O3, y, ValueOf(res, O3))];
      assert p[0].channel == O3;
    case (None, None, Some(z)) =>
      assert p == [Publish(Aqi, z, ValueOf(res, Aqi))];
      assert p[0].channel == Aqi;
    case (Some(x), Some(y), None) =>
      assert p == [Publish(No2, x, ValueOf(res, No2)), Publish(O3, y, ValueOf(res, O3))];
      assert p[0].channel == No2 && p[1].channel == O3;
    case (Some(x), None, Some(z)) =>
      assert p == [Publish(No2, x, ValueOf(res, No2)), Publish(Aqi, z, ValueOf(res, Aqi))];
      assert p[0].channel == No2 && p[1].channel == Aqi;
    case (None, Some(y), Some(z)) =>
      assert p == [Publish(O3, y, ValueOf(res, O3)), Publish(Aqi, z, ValueOf(res, Aqi))];
      assert p[0].channel == O3 && p[1].channel == Aqi;
    case (Some(x), Some(y), Some(z)) =>
      assert p == [Publish(No2, x, ValueOf(res, No2)), Publish(O3, y, ValueOf(res, O3)), Publish(Aqi, z, ValueOf(res, Aqi))];
      assert p[0].channel == No2 && p[1].channel == O3 && p[2].channel == Aqi;
  }

  /**
    What a cycle publishes. Nothing unless start, read and algorithm all
    report OK; then exactly the block PublishAllSpec describes, for the
    results the algorithm returned. Every publication follows the
    algorithm call.
   */
  lemma UpdatePublications(c: Component.Component, v: Vendor)
    requires Component.Valid(c)
    ensures !AllOk(v) ==> Publications(Update(c, v).events) == []
    ensures AllOk(v) ==> Publications(Update(c, v).events) == PublishAll(c, AlgorithmReply(v, v.readAdc.frame).results)
    ensures var es := Update(c, v).events;
      forall i :: 0 <= i < |es| && es[i].Publish? ==> 4 <= i && es[3].Calc?
  {
    var es := Update(c, v).events;
    if AllOk(v) {
      var frame := v.readAdc.frame;
      var head := CycleHead(frame);
      var pubs := PublishAll(c, AlgorithmReply(v, frame).results);
      PublicationsOfNoPublishes(head);
      PublicationsAppend(head, pubs);
      PublishAllSpec(c, AlgorithmReply(v, frame).results);
      PublicationsOfPublishes(pubs);
    } else {
      FailedCycleEvents(c, v);
      PublicationsOfNoPublishes(es);
    }
  }

  /** The events of a cycle up to and including the algorithm call. */
  function CycleHead(frame: AdcFrame): seq<Event> {
    [StartMeasurement, Wait(MeasurementWaitMs), ReadAdc, Calc(InputFor(frame))]
  }

  lemma FailedCycleEvents(c: Component.Component, v: Vendor)
    requires Component.Valid(c) && !AllOk(v)
    ensures forall i :: 0 <= i < |Update(c, v).events| ==> !Update(c, v).events[i].Publish?
  {
  }

  /** A freshly constructed component has no sinks, so no cycle publishes anything. */
  lemma FreshComponentPublishesNothing(v: Vendor)
    ensures Publications(Update(Component.NewComponent(), v).events) == []
  {
    UpdatePublications(Component.NewComponent(), v);
  }

  /**
    The cycle does not look at what `setup()` did: the same vendor replies
    give the same events whether or not, and however, the device structure
    was wired. A failed initialisation does not stop later cycles.
   */
  lemma UpdateIgnoresSetup(c: Component.Component, w: Component.ConfigWiring, a: Component.SetupReplies, v: Vendor)
    requires Component.Valid(c)
    ensures Update(Component.Setup(c, w, a).comp, v).events == Update(c, v).events
  {
    var s := Component.Setup(c, w, a).comp;
    assert SinkOf(s, No2) == SinkOf(c, No2) && SinkOf(s, O3) == SinkOf(c, O3) && SinkOf(s, Aqi) == SinkOf(c, Aqi);
  }

  /**
    The end-to-end scenario: all three sinks set, a stub ADC frame and a stub
    algorithm that answers OK for 50 % RH and 25 degC. Exactly the three
    results are delivered, NO2, O3 and AQI, to their three sinks.
   */
  lemma EndToEnd(c: Component.Component, frame: AdcFrame, no2: Reading, o3: Reading, aqi: int, s1: SinkId, s2: SinkId, s3: SinkId)
    requires Component.Valid(c)
    requires c.no2Sink == Some(s1) && c.o3Sink == Some(s2) && c.aqiSink == Some(s3)
    ensures var stub := (input: AlgoInput) =>
        if input.humidityPct == 50.0 && input.temperatureDegC == 25.0 && input.adc == frame
        then CalcReply(CalcOk, AlgoResults(no2, o3, aqi))
        else CalcReply(CalcError(-1), AlgoResults(no2, o3, aqi));
      Publications(Update(c, Vendor(Component.Ok, AdcOk(frame), stub)).events)
        == [Publish(No2, s1, Ppb(no2)), Publish(O3, s2, Ppb(o3)), Publish(Aqi, s3, Index(aqi))]
  {
    var stub := (input: AlgoInput) =>
        if input.humidityPct == 50.0 && input.temperatureDegC == 25.0 && input.adc == frame
        then CalcReply(CalcOk, AlgoResults(no2, o3, aqi))
        else CalcReply(CalcError(-1), AlgoResults(no2, o3, aqi));
    var v := Vendor(Component.Ok, AdcOk(frame), stub);
    var r := Update(c, v);
    var head := [StartMeasurement, Wait(MeasurementWaitMs), ReadAdc, Calc(InputFor(frame))];
    var pubs := [Publish(No2, s1, Ppb(no2)), Publish(O3, s2, Ppb(o3)), Publish(Aqi, s3, Index(aqi))];
    assert r.events == head + pubs;
    PublicationsOfNoPublishes(head);
    PublicationsAppend(head, pubs);
    PublicationsOfPublishes(pubs);
  }
}

=== FILE: wrappers.dfy ===
/** Optional values: the model's stand-in for a C++ pointer that may be null. */
module Wrappers {

  datatype Option<+T> = None | Some(value: T)
}
